=== FILE: README.md ===
# cpack manifest model

A Dafny model of the package-manifest schema in `cpack/__init__.py`. A
manifest (format tag `dpm/v1`) describes a package. It holds named *contract
types*, each built by a named *compiler* from an ordered list of source
paths. It also holds local *sources*, compiler configurations, and
*dependencies* that point to other packages. This project models the
following and proves properties about them:

- the four constrained strings `Name`, `DepPath`, `RelPath` and `Address`;
- the typed records `Checksum`, `Link`, `ContractType`, `Source`, `Compiler`
  and `Manifest`, with their defaults and required fields;
- the format-tag check;
- the manifest's cross-reference pass (`validate_types`);
- the residual maps that carry the undeclared fields of `Source` and
  `Manifest`.

## Layout

| file | module | what it holds |
|---|---|---|
| `wrappers.dfy` | `Wrappers` | `Option`, `Result` |
| `regex.dfy` | `Regex` | a small regular-expression AST. `Lang` gives its language. `AnchoredMatch` is what Python's `re.match` accepts for `^r$`. Lemmas cover starred and repeated character classes. |
| `lexical.dfy` | `Lexical` | the character classes and the four validators as plain predicates. The patterns are transcribed from the source as `Re` values. Lemmas show that each predicate equals its pattern's language. Also here: one-pass matchers for the two path kinds, and the trailing-newline findings. |
| `schema.dfy` | `Schema` | the typed records, a `Json` value type for opaque contents, and the constants `FormatTag` and `DefaultAlgorithm` |
| `crossref.dfy` | `CrossRef` | `ValidateTypes`, and `ReferencesResolve` as an independent statement of referential integrity |
| `decode.dfy` | `Decode` | document records as they arrive. Each optional field is an `Option`. Undeclared fields are either kept (`extra`) or dropped (`ignored`). Also here: decoding with defaults and the lexical rules, and writing a manifest back out with every field explicit. |
| `decode_laws.dfy` | `DecodeLaws` | round trips, defaults, required fields, and the package's own example |

How the source's behaviour is represented:

- A failed validation is a `Failure` that carries a set of errors. Pydantic
  collects every field error of a document before it raises, so a set is the
  natural counterpart.
- Dafny maps have no order. So the cross-reference pass reports the set of
  all dangling references. The source stops at the first failing `assert`,
  in dictionary order. Whether validation passes or fails is the same in both.
- A document keeps its declared fields and its undeclared ones apart, so an
  extension field never carries a declared name. `Decode.WellFormedDoc` states
  this of a document, and `Schema.ExtrasApart` of a manifest.

Points where the code fixes a detail one might expect otherwise; the model
follows the code:

- `Name` uses `*` (`cpack/__init__.py:8`), so the empty name is accepted.
- The extension after the final `.` is `[a-z]*` (`cpack/__init__.py:12`,
  `:16`), so it may be empty.
- The tag literal is `"dpm/v1"` (`cpack/__init__.py:106`); it is required.
- `Checksum` fields default to `"sha256"` and `""` (`cpack/__init__.py:24-25`).
- Deployment chain ids are `int` (`cpack/__init__.py:53`), so any integer.
- The schema example's compiler `solc-0.8.17` (`cpack/__init__.py:135`,
  `:153`) is not a `Name`, because `Name` has no `.`. The example also has no
  `manifest` tag. See `DecodeLaws.DocumentedExampleRejected`.
- There is no canonical byte encoder in the code. Writing a manifest back out
  is modelled as pydantic's `dict()`, which emits every declared field,
  defaults included.

## Model

| member | source | states |
|---|---|---|
| Lexical.NameMatchesPattern | cpack/__init__.py:7-8 | `IsName` holds exactly for the strings in the language of `[-A-Za-z0-9_]*`, the empty string included |
| Lexical.DepPathMatchesPattern | cpack/__init__.py:11-12 | `IsDepPath` (only path characters, plus some `.` followed only by lower-case letters up to the end) holds exactly for the language of `[A-Za-z0-9./]*\.[a-z]*` |
| Lexical.RelPathMatchesPattern | cpack/__init__.py:15-16 | `IsRelPath` (a `./` prefix, then a dependency path) holds exactly for the language of `\./[A-Za-z0-9./]*\.[a-z]*` |
| Lexical.AddressMatchesPattern | cpack/__init__.py:19-20 | `IsAddress` (length 42, `0x`, forty hex digits of either case) holds exactly for the language of `0x[A-Fa-f0-9]{40}` |
| Lexical.MatchDepPath | cpack/__init__.py:11-12 | a single left-to-right scan accepts exactly the dependency paths |
| Lexical.MatchRelPath | cpack/__init__.py:15-16 | checking the `./` prefix and then scanning the rest accepts exactly the local paths |
| Lexical.RelPathIsDepPath | cpack/__init__.py:11-16 | every string the `RelPath` rule accepts is also accepted by the `DepPath` rule |
| Lexical.SourcePathUnion | cpack/__init__.py:52 | a contract-type source accepted by either `RelPath` or `DepPath` is exactly one accepted as `DepPath` |
| Lexical.ShortAddressRejected | cpack/__init__.py:19-20 | `"0xABC"` is not an address, even with the trailing-newline allowance |
| Lexical.MixedCaseAddressAccepted | cpack/__init__.py:19-20 | `0x` followed by forty hex digits of mixed case is an address |
| Lexical.NameExamples | cpack/__init__.py:7-8 | `""` and `MyContractType` are names; `solc-0.8.17` is not |
| Lexical.PathExamples | cpack/__init__.py:11-16 | `./file.sol` is a local path. `depA/file.sol` and `depA/.` (empty extension) are dependency paths. `depA/file` (no `.`) and `depA/file.Sol` (upper-case extension) are not. |
| Lexical.NameAcceptsTrailingNewline | cpack/__init__.py:7-8 | as written, every name followed by `"\n"` is also accepted, though it is not a name |
| Lexical.DepPathAcceptsTrailingNewline | cpack/__init__.py:11-12 | as written, every dependency path followed by `"\n"` is also accepted |
| Lexical.RelPathAcceptsTrailingNewline | cpack/__init__.py:15-16 | as written, every local path followed by `"\n"` is also accepted |
| Lexical.AddressAcceptsTrailingNewline | cpack/__init__.py:19-20 | as written, every address followed by `"\n"` is also accepted, which makes a 43-character "address" |
| CrossRef.FirstSegment | cpack/__init__.py:124 | `split("/")[0]` is a prefix of the path that has no `/`, and it is either the whole path or stops at a `/` |
| CrossRef.LeadsToSlashIsFirstSegment | cpack/__init__.py:124 | the text before the first `/` is unique, and it is what `FirstSegment` returns |
| CrossRef.CheckSource | cpack/__init__.py:119-124 | one source path passes the `./`, `"/" in src` and first-segment checks exactly when it resolves to a local source or a declared dependency. A failure names the unresolved path. |
| CrossRef.FaultsAreDangling | cpack/__init__.py:114-124 | the faults collected over all contract types are exactly the references that do not resolve |
| CrossRef.DanglingPathUnresolved | cpack/__init__.py:119-124 | a reported local-source or dependency fault names a path that really resolves neither locally nor through any declared dependency |
| CrossRef.DanglingBreaksIntegrity | cpack/__init__.py:114-124 | any single dangling reference means the manifest fails referential integrity |
| CrossRef.NoFaultsIffResolved | cpack/__init__.py:114-124 | no fault is collected exactly when every compiler reference and every source path resolves |
| CrossRef.ValidateTypes | cpack/__init__.py:114-126 | passes exactly when referential integrity holds, and then returns the manifest unchanged. Otherwise it reports a non-empty set holding exactly the dangling references. |
| CrossRef.OnlyDependencyCanDangle | cpack/__init__.py:119-124 | when the only listed path is `depA/file.sol` and the compiler is declared, the only reference that can dangle is the unknown dependency `depA` |
| CrossRef.DependencySegmentDecides | cpack/__init__.py:119-124 | with one contract type listing `depA/file.sol`, validation passes iff `depA` is a dependency. With only other keys, such as `depB`, it fails naming `depA`. |
| Decode.ParseChecksum | cpack/__init__.py:23-25 | each checksum field is kept when given; a missing `algorithm` becomes `sha256` and a missing `hash` the empty string, each on its own |
| Decode.ParseLink | cpack/__init__.py:38-40 | a link decodes exactly when it has a `uri`, and keeps that `uri`. A given checksum is decoded with its defaults, and an absent one stays absent. Otherwise the error is the missing `uri`. |
| Decode.ParseContractType | cpack/__init__.py:50-54 | a contract-type document decodes exactly when its compiler is present and a name, every source is a local or dependency path, every deployed address is an address, and a given output link has a `uri`. The decoded value keeps the compiler, the sources in order and the deployments. A given output is the decoded link, and an absent one stays absent. A missing or malformed compiler name is reported. |
| Decode.ParseSource | cpack/__init__.py:73-77 | a source document decodes exactly when its `link` is present and has a `uri`. The decoded source holds the decoded link and keeps every undeclared field of its document. |
| Decode.ParseCompiler | cpack/__init__.py:89-91 | a compiler document decodes exactly when its `bin` link is present and has a `uri`, and holds that decoded link. `settings` defaults to empty and is otherwise kept. A failure carries a non-empty set of errors. |
| Decode.ParseEntries | cpack/__init__.py:109-112 | a mapping decodes exactly when every key obeys the key rule and every value decodes, with the same keys and the decoded values. Every bad key and every value's errors are reported. |
| Decode.TagErrors | cpack/__init__.py:106 | the tag check passes exactly for `"dpm/v1"` |
| Decode.ParseFields | cpack/__init__.py:105-112 | the fields decode exactly when the tag is `"dpm/v1"` and each of the four mappings decodes. The decoded manifest has the given name and metadata, or `""` and `{}`, and the decoded mappings. A missing or wrong tag is reported. The result obeys every field rule and keeps the undeclared top-level and per-source fields. |
| Decode.ParseManifest | cpack/__init__.py:105-129 | a document decodes exactly when its fields decode and the result passes the cross-reference pass, and then to the decoded fields unchanged. Any tag other than `"dpm/v1"` fails. A decoded manifest satisfies every field rule and referential integrity, and keeps the extension fields of the manifest and of each source. |
| DecodeLaws.ContractTypeRoundTrip | cpack/__init__.py:50-54 | a contract type written out decodes back to itself iff its compiler, paths and addresses obey the lexical rules |
| DecodeLaws.EntriesRoundTrip | cpack/__init__.py:109-112 | decoding entries that each decode to the matching entry of a mapping gives that mapping |
| DecodeLaws.LinkRoundTrip | cpack/__init__.py:38-40 | every link written out decodes back to itself |
| DecodeLaws.SourceRoundTrip | cpack/__init__.py:73-77 | every source, extension fields included, written out decodes back to itself |
| DecodeLaws.CompilerRoundTrip | cpack/__init__.py:89-91 | every compiler written out decodes back to itself |
| DecodeLaws.TypesRoundTrip | cpack/__init__.py:109 | a `types` mapping with name keys and valid contract types decodes back from its written-out form |
| DecodeLaws.SourcesRoundTrip | cpack/__init__.py:110 | a `sources` mapping with `RelPath` keys decodes back from its written-out form |
| DecodeLaws.CompilersRoundTrip | cpack/__init__.py:111 | a `compilers` mapping with name keys decodes back from its written-out form |
| DecodeLaws.DependenciesRoundTrip | cpack/__init__.py:112 | a `dependencies` mapping with name keys decodes back from its written-out form |
| DecodeLaws.FieldsRoundTrip | cpack/__init__.py:105-112 | a manifest obeying the field rules decodes back from its written-out fields |
| DecodeLaws.ManifestRoundTrip | cpack/__init__.py:105-126 | writing a manifest out and decoding it gives the same manifest back iff the manifest satisfies every field rule and referential integrity |
| Decode.ChecksumToDoc | cpack/__init__.py:23-25 | a checksum written out spells out both fields and decodes back to itself |
| Decode.LinkToDoc | cpack/__init__.py:38-40 | a link written out spells out its `uri`, and its checksum exactly when it has one |
| Decode.ContractTypeToDoc | cpack/__init__.py:50-54 | a contract type written out spells out its compiler, sources and deployments, and its output exactly when it has one |
| Decode.SourceToDoc | cpack/__init__.py:73-77 | a source written out spells out its link and carries its undeclared fields unchanged |
| Decode.CompilerToDoc | cpack/__init__.py:89-91 | a compiler written out spells out its `bin` and its settings |
| Decode.ManifestToDoc | cpack/__init__.py:105-112 | a manifest written out spells out every declared field, defaults included, with the same mapping keys and the same extension fields. It is well formed exactly when the manifest's extension fields are named apart from the declared ones. |
| DecodeLaws.DecodeKeepsExtrasApart | cpack/__init__.py:105-129 | decoding a document whose extension fields are named apart from the declared ones gives a manifest with the same property, and writing it out keeps the document well formed |
| DecodeLaws.ReparseStable | tests/test_schema.py:18-21 | decoding, writing out and decoding again gives the first result |
| DecodeLaws.ExplicitContractTypeRoundTrip | cpack/__init__.py:50-54 | a contract-type document that spells out every field is written back out unchanged after decoding |
| DecodeLaws.ExplicitTypesRoundTrip | cpack/__init__.py:109 | the same for a whole `types` mapping |
| DecodeLaws.ExplicitSourcesRoundTrip | cpack/__init__.py:110 | the same for a `sources` mapping, extension fields included |
| DecodeLaws.ExplicitCompilersRoundTrip | cpack/__init__.py:111 | the same for a `compilers` mapping |
| DecodeLaws.ExplicitLinksRoundTrip | cpack/__init__.py:112 | the same for a `dependencies` mapping |
| DecodeLaws.ExplicitDocRoundTrip | cpack/__init__.py:105-129 | a manifest document that spells out every declared field and carries no dropped field is written back out exactly as it came in, unrecognised fields included |
| DecodeLaws.ChecksumDefaults | cpack/__init__.py:23-25 | a checksum with neither field given is `sha256` with an empty hash; with only `hash` given the algorithm is still `sha256`; with only `algorithm` given the hash is still empty |
| DecodeLaws.LinkFields | cpack/__init__.py:38-40 | `checksum` defaults to none, and `uri` is required |
| DecodeLaws.ContractTypeFields | cpack/__init__.py:50-54 | sources default to empty, deployments to empty and output to none; `compiler` is required |
| DecodeLaws.SourceFields | cpack/__init__.py:73-77 | `link` is required, and the undeclared fields are carried into the decoded source |
| DecodeLaws.CompilerFields | cpack/__init__.py:89-91 | `settings` defaults to empty, and `bin` is required |
| DecodeLaws.ManifestDefaults | cpack/__init__.py:105-112 | a document with only the tag decodes to an empty name and empty mappings, keeping its extension fields |
| DecodeLaws.ForeignSegmentNeverResolves | cpack/__init__.py:119-124 | in a manifest obeying the field rules, a dependency path whose first segment is not a name (e.g. `..`) never resolves |
| DecodeLaws.ExampleFieldsValid | cpack/__init__.py:130-164 | the schema example with the `dpm/v1` tag added and compiler `solc` obeys every field rule |
| DecodeLaws.ExampleResolves | cpack/__init__.py:130-164 | in that example, `./file.sol` resolves locally and `depA/file.sol` resolves through `depA` |
| DecodeLaws.ExampleAccepted | cpack/__init__.py:130-164 | the written-out form of that tagged example with compiler `solc`, every default spelled out, decodes to the example |
| DecodeLaws.ExampleDocAccepted | cpack/__init__.py:105-164 | the schema example document as written, with the `dpm/v1` tag added and compiler `solc`, decodes to the example: the omitted name, metadata, deployments and settings take their defaults |
| DecodeLaws.TaggedExampleRejected | cpack/__init__.py:130-164 | the schema example with the `dpm/v1` tag added and compiler `solc-0.8.17` is still rejected, with a bad-name error |
| DecodeLaws.DocumentedExampleRejected | cpack/__init__.py:105-164 | the schema example exactly as written (no tag, compiler `solc-0.8.17`) is rejected with both a missing-tag and a bad-name error |

## Left out

- Pydantic's parsing and coercion are not modelled: JSON to records, strings
  to integers for chain ids, the `loc` paths in its error list. The model
  starts from documents whose fields already have their declared types.
- The `AnyUrl` syntax check on `Link.uri` is not modelled. It is a library
  validator with no visible source, so `uri` is an opaque string and a link
  never fails on its URI.
- `metadata`, `settings` and extension fields are uninterpreted `Json` values.
  JSON floating-point numbers are left out; numbers are integers.
- `schema_extra` examples are documentation. One of them is used only for the
  example lemmas.
- Dictionary insertion order is not modelled. Mappings are Dafny maps, so
  iteration order and "first error" are absent. The set of errors is reported
  instead.
- When the field rules fail, the model reports only the field errors. In the
  source, a root validator with no `skip_on_failure` still runs. It may also
  add an assertion error, or raise `KeyError` when it reads a mapping that
  failed. The document is rejected either way.
- `assert` statements stripped under `python -O` are not modelled. The
  cross-reference checks are always on.
- The fuzz test is not modelled as written. It compares `dict()` output with
  a document whose empty fields were removed, which does not hold once
  defaults are re-emitted. `DecodeLaws.ReparseStable` states the stability
  that does hold.

- Decode.ParseFields: applies the whole-string lexical rules, not the
  acceptance of a value followed by a final newline that the source's
  `re.match` allows. A key such as `"depA\n"` is rejected here and accepted
  by the source; see "## Findings".
- Decode.ParseManifest: the same; it decodes the fields with
  `Decode.ParseFields`, so it inherits the whole-string rules.
- Decode.ParseContractType: the same whole-string rules for the compiler
  name, each source path and each deployed address. `compiler: "solc\n"` and
  a 43-character address ending in `"\n"` are rejected here and accepted by
  the source.

## Findings

| source | as written | input that shows it | evidently intended | confidence | as-written member | corrected member |
|---|---|---|---|---|---|---|
| cpack/__init__.py:7-8 | `^[-A-Za-z0-9_]*$` is checked with `re.match`, where `$` also matches before a final newline | `"depA\n"` is accepted as a dependency or compiler name | only strings made entirely of name characters | high; not executed | Lexical.NameAcceptsTrailingNewline | Lexical.NameMatchesPattern |
| cpack/__init__.py:11-12 | `^[A-Za-z0-9\./]*\.[a-z]*$` under `re.match` | `"depA/file.sol\n"` is accepted as a source path | the path rule over the whole string | high; not executed | Lexical.DepPathAcceptsTrailingNewline | Lexical.DepPathMatchesPattern |
| cpack/__init__.py:15-16 | `^\./[A-Za-z0-9\./]*\.[a-z]*$` under `re.match` | `"./file.sol\n"` is accepted as a `sources` key | the local-path rule over the whole string | high; not executed | Lexical.RelPathAcceptsTrailingNewline | Lexical.RelPathMatchesPattern |
| cpack/__init__.py:19-20 | `^0x[A-Fa-f0-9]{40}$` under `re.match` | `"0x" + 40 hex digits + "\n"`, 43 characters, is accepted as an address | exactly 42 characters | high; not executed | Lexical.AddressAcceptsTrailingNewline | Lexical.AddressMatchesPattern |

The rest of the model uses the corrected predicates `IsName`, `IsDepPath`,
`IsRelPath` and `IsAddress`, which match the whole string.
`Regex.AnchoredMatch` is the as-written acceptance.

=== FILE: crossref.dfy ===
/**
 The manifest's cross-reference pass: every contract type names a declared
 compiler, and every source path it lists resolves either to a local source
 (`./...`) or to a declared dependency through its first path segment.
 */
module CrossRef {
  import opened Wrappers
  import opened Schema

  predicate StartsWith(s: string, prefix: string) {
    |prefix| <= |s| && s[..|prefix|] == prefix
  }

  /** `s.split("/")[0]`: the text before the first '/', or all of `s` when it has none. */
  function FirstSegment(s: string): (seg: string)
    ensures seg <= s
    ensures '/' !in seg
    ensures |seg| == |s| || s[|seg|] == '/'
  {
    if s == [] || s[0] == '/' then [] else [s[0]] + FirstSegment(s[1..])
  }

  /** `dep` is the text of `src` before its first '/', and that '/' exists. */
  ghost predicate LeadsToSlash(src: string, dep: string) {
    |dep| < |src| && src[|dep|] == '/' && dep == src[..|dep|] && '/' !in dep
  }

  /** A source path resolves against the manifest's local sources or dependencies. */
  ghost predicate SourceResolves(m: Manifest, src: string) {
    if StartsWith(src, "./") then src in m.sources
    else exists dep :: LeadsToSlash(src, dep) && dep in m.dependencies
  }

  /** Referential integrity of the whole manifest. */
  ghost predicate ReferencesResolve(m: Manifest) {
    forall t :: t in m.types ==>
      && m.types[t].compiler in m.compilers
      && forall i :: 0 <= i < |m.types[t].sources| ==> SourceResolves(m, m.types[t].sources[i])
  }

  /** A reference of contract type `contractType` that does not resolve. */
  datatype Dangling =
    | UnknownCompiler(contractType: string, compiler: string)
    | UnknownLocalSource(contractType: string, path: string)
    | NoSeparator(contractType: string, path: string)
    | UnknownDependency(contractType: string, path: string, dependency: string)

  /** `d` describes a reference of `m` that really does not resolve, and why. */
  ghost predicate IsDangling(m: Manifest, d: Dangling) {
    && d.contractType in m.types
    && match d
       case UnknownCompiler(t, c) =>
         c == m.types[t].compiler && c !in m.compilers
       case UnknownLocalSource(t, p) =>
         p in m.types[t].sources && StartsWith(p, "./") && p !in m.sources
       case NoSeparator(t, p) =>
         p in m.types[t].sources && !StartsWith(p, "./") && '/' !in p
       case UnknownDependency(t, p, dep) =>
         p in m.types[t].sources && !StartsWith(p, "./") && LeadsToSlash(p, dep) && dep !in m.dependencies
  }

  /** The segment before the first '/' is unique. */
  lemma {:induction false} LeadsToSlashIsFirstSegment(src: string, dep: string)
    requires LeadsToSlash(src, dep)
    ensures dep == FirstSegment(src)
    decreases |src|
  {
    if |dep| > 0 {
      assert dep[0] in dep && src[0] == dep[0];
      assert src[1..][..|dep| - 1] == dep[1..];
      LeadsToSlashIsFirstSegment(src[1..], dep[1..]);
    }
  }

  /** The checks made for one source path, in the order the source makes them. */
  function CheckSource(m: Manifest, t: string, src: string): (r: Option<Dangling>)
    ensures r.None? <==> SourceResolves(m, src)
    ensures r.Some? ==> r.value.contractType == t && !r.value.UnknownCompiler? && r.value.path == src
    ensures r.Some? && t in m.types && src in m.types[t].sources ==> IsDangling(m, r.value)
  {
    if StartsWith(src, "./") then
      if src in m.sources then None else Some(UnknownLocalSource(t, src))
    else if '/' !in src then
      assert forall dep :: !LeadsToSlash(src, dep);
      Some(NoSeparator(t, src))
    else
      var seg := FirstSegment(src);
      assert LeadsToSlash(src, seg);
      assert forall dep :: LeadsToSlash(src, dep) ==> dep == seg by {
        forall dep | LeadsToSlash(src, dep) ensures dep == seg {
          LeadsToSlashIsFirstSegment(src, dep);
        }
      }
      if seg in m.dependencies then None else Some(UnknownDependency(t, src, seg))
  }

  /** Every unresolved reference of one contract type. */
  function TypeFaults(m: Manifest, t: string): set<Dangling>
    requires t in m.types
  {
    var ct := m.types[t];
    (if ct.compiler in m.compilers then {} else {UnknownCompiler(t, ct.compiler)})
    + set i | 0 <= i < |ct.sources| && CheckSource(m, t, ct.sources[i]).Some? :: CheckSource(m, t, ct.sources[i]).value
  }

  /** Every unresolved reference of the manifest. */
  function Faults(m: Manifest): set<Dangling> {
    set t, d | t in m.types && d in TypeFaults(m, t) :: d
  }

  /** The collected faults are exactly the dangling references. */
  lemma FaultsAreDangling(m: Manifest)
    ensures forall d :: d in Faults(m) <==> IsDangling(m, d)
  {
    forall d ensures d in Faults(m) <==> IsDangling(m, d) {
      if d in Faults(m) {
        var t :| t in m.types && d in TypeFaults(m, t);
        var ct := m.types[t];
        if d !in (if ct.compiler in m.compilers then {} else {UnknownCompiler(t, ct.compiler)}) {
          var i :| 0 <= i < |ct.sources| && CheckSource(m, t, ct.sources[i]).Some? && d == CheckSource(m, t, ct.sources[i]).value;
          assert ct.sources[i] in ct.sources;
        }
      }
      if IsDangling(m, d) {
        var t := d.contractType;
        var ct := m.types[t];
        if !d.UnknownCompiler? {
          var p := d.path;
          var i :| 0 <= i < |ct.sources| && ct.sources[i] == p;
          if d.UnknownDependency? {
            LeadsToSlashIsFirstSegment(p, d.dependency);
          }
          assert CheckSource(m, t, p) == Some(d);
          assert d in TypeFaults(m, t);
        }
        assert d in TypeFaults(m, t);
      }
    }
  }

  /** A dangling path reference really does not resolve. */
  lemma DanglingPathUnresolved(m: Manifest, d: Dangling)
    requires IsDangling(m, d) && !d.UnknownCompiler?
    ensures !SourceResolves(m, d.path)
  {
    if d.UnknownDependency? {
      forall dep | LeadsToSlash(d.path, dep) ensures dep == d.dependency {
        LeadsToSlashIsFirstSegment(d.path, dep);
        LeadsToSlashIsFirstSegment(d.path, d.dependency);
      }
    }
  }

  /** A single dangling reference breaks referential integrity. */
  lemma DanglingBreaksIntegrity(m: Manifest, d: Dangling)
    ensures IsDangling(m, d) ==> !ReferencesResolve(m)
  {
    if IsDangling(m, d) && !d.UnknownCompiler? {
      var ct := m.types[d.contractType];
      var i :| 0 <= i < |ct.sources| && ct.sources[i] == d.path;
      DanglingPathUnresolved(m, d);
    }
  }

  /** No fault is collected exactly when every reference resolves. */
  lemma NoFaultsIffResolved(m: Manifest)
    ensures Faults(m) == {} <==> ReferencesResolve(m)
  {
    FaultsAreDangling(m);
    forall d ensures IsDangling(m, d) ==> !ReferencesResolve(m) {
      DanglingBreaksIntegrity(m, d);
    }
    if !ReferencesResolve(m) {
      var t :| t in m.types && !(
        && m.types[t].compiler in m.compilers
        && forall i :: 0 <= i < |m.types[t].sources| ==> SourceResolves(m, m.types[t].sources[i]));
      var ct := m.types[t];
      if ct.compiler !in m.compilers {
        assert UnknownCompiler(t, ct.compiler) in TypeFaults(m, t);
        assert UnknownCompiler(t, ct.compiler) in Faults(m);
      } else {
        var i :| 0 <= i < |ct.sources| && !SourceResolves(m, ct.sources[i]);
        assert CheckSource(m, t, ct.sources[i]).value in TypeFaults(m, t);
        assert CheckSource(m, t, ct.sources[i]).value in Faults(m);
      }
    }
  }

  /**
   The cross-reference pass: the manifest unchanged when every reference
   resolves, otherwise the set of references that do not.
   */
  function ValidateTypes(m: Manifest): (r: Result<Manifest, set<Dangling>>)
    ensures r.Success? <==> ReferencesResolve(m)
    ensures r.Success? ==> r.value == m
    ensures r.Failure? ==> r.error != {} && forall d :: d in r.error <==> IsDangling(m, d)
  {
    FaultsAreDangling(m);
    NoFaultsIffResolved(m);
    var faults := Faults(m);
    if faults == {} then Success(m) else Failure(faults)
  }

  /** In a manifest whose only contract type lists only `depA/file.sol`, the one possible dangling reference. */
  lemma OnlyDependencyCanDangle(m: Manifest, e: Dangling)
    requires m.types.Keys == {"MyContractType"}
    requires m.types["MyContractType"].sources == ["depA/file.sol"]
    requires m.types["MyContractType"].compiler in m.compilers
    ensures IsDangling(m, e) ==> e == UnknownDependency("MyContractType", "depA/file.sol", "depA")
  {
    var src := "depA/file.sol";
    assert LeadsToSlash(src, "depA");
    assert !StartsWith(src, "./") by { assert src[0] == 'd'; }
    assert src[4] == '/';
    if IsDangling(m, e) && e.UnknownDependency? {
      LeadsToSlashIsFirstSegment(e.path, e.dependency);
      LeadsToSlashIsFirstSegment(e.path, "depA");
    }
  }

  /**
   A dependency path resolves through its first segment: with a single
   contract type listing `depA/file.sol`, validation passes exactly when
   `depA` is a declared dependency, and otherwise reports that segment.
   */
  lemma DependencySegmentDecides(m: Manifest)
    requires m.types.Keys == {"MyContractType"}
    requires m.types["MyContractType"].sources == ["depA/file.sol"]
    requires m.types["MyContractType"].compiler in m.compilers
    ensures ValidateTypes(m).Success? <==> "depA" in m.dependencies
    ensures "depA" !in m.dependencies ==>
      ValidateTypes(m).error == {UnknownDependency("MyContractType", "depA/file.sol", "depA")}
  {
    var src := "depA/file.sol";
    var d := UnknownDependency("MyContractType", src, "depA");
    assert LeadsToSlash(src, "depA");
    assert src[..2] != "./" by { assert src[0] == 'd'; }
    forall e ensures IsDangling(m, e) ==> e == d {
      OnlyDependencyCanDangle(m, e);
    }
    if "depA" in m.dependencies {
      assert SourceResolves(m, src);
      assert ReferencesResolve(m);
    } else {
      assert IsDangling(m, d);
    }
  }
}

=== FILE: decode.dfy ===
/**
 Decoding a manifest document into the typed records: required fields,
 defaults for the optional ones, the format tag, the lexical rules on
 keys, paths and addresses, and finally the cross-reference pass. Also
 the reverse direction, which writes every declared field out explicitly.
 */
module Decode {
  import opened Wrappers
  import opened Schema
  import opened Lexical
  import opened CrossRef

  /** Why a document was rejected. */
  datatype Error =
    | MissingField(field: string)
    | UnsupportedFormat(tag: string)
    | BadName(value: string)
    | BadPath(value: string)
    | BadRelPath(value: string)
    | BadAddress(value: string)
    | Unresolved(fault: Dangling)

  // Documents are the records as they arrive. An optional field that was left
  // out (or, where the record allows it, given as null) is `None`. `ignored`
  // holds the undeclared fields of the records that drop them; `extra` those
  // of the records that keep them.

  datatype ChecksumDoc = ChecksumDoc(
    algorithm: Option<string>,
    hash: Option<string>,
    ignored: map<string, Json>)

  datatype LinkDoc = LinkDoc(
    uri: Option<string>,
    checksum: Option<ChecksumDoc>,
    ignored: map<string, Json>)

  datatype ContractTypeDoc = ContractTypeDoc(
    compiler: Option<string>,
    sources: Option<seq<string>>,
    deployments: Option<map<int, seq<string>>>,
    output: Option<LinkDoc>,
    ignored: map<string, Json>)

  datatype SourceDoc = SourceDoc(
    link: Option<LinkDoc>,
    extra: map<string, Json>)

  datatype CompilerDoc = CompilerDoc(
    bin: Option<LinkDoc>,
    settings: Option<map<string, Json>>,
    ignored: map<string, Json>)

  datatype ManifestDoc = ManifestDoc(
    manifest: Option<string>,
    name: Option<string>,
    metadata: Option<map<string, Json>>,
    types: Option<map<string, ContractTypeDoc>>,
    sources: Option<map<string, SourceDoc>>,
    compilers: Option<map<string, CompilerDoc>>,
    dependencies: Option<map<string, LinkDoc>>,
    extra: map<string, Json>)

  /** The lexical rules a contract type's fields obey. */
  predicate ValidContractType(ct: ContractType) {
    && IsName(ct.compiler)
    && (forall i :: 0 <= i < |ct.sources| ==> IsRelPath(ct.sources[i]) || IsDepPath(ct.sources[i]))
    && (forall chain :: chain in ct.deployments ==>
          forall j :: 0 <= j < |ct.deployments[chain]| ==> IsAddress(ct.deployments[chain][j]))
  }

  /**
   A manifest document whose extension fields, top-level and per source,
   are named apart from the declared fields, as every real document's are.
   */
  predicate WellFormedDoc(d: ManifestDoc) {
    && d.extra.Keys !! ManifestFieldNames
    && forall p :: p in d.sources.GetOr(map[]) ==> d.sources.GetOr(map[])[p].extra.Keys !! SourceFieldNames
  }

  /** The rules each field of a manifest obeys on its own. */
  predicate FieldsValid(m: Manifest) {
    && m.manifest == FormatTag
    && (forall t :: t in m.types ==> IsName(t) && ValidContractType(m.types[t]))
    && (forall p :: p in m.sources ==> IsRelPath(p))
    && (forall c :: c in m.compilers ==> IsName(c))
    && (forall d :: d in m.dependencies ==> IsName(d))
  }

  /** Everything a decoded manifest is guaranteed to satisfy. */
  ghost predicate ValidManifest(m: Manifest) {
    FieldsValid(m) && ReferencesResolve(m)
  }

  function NameError(key: string): Error { BadName(key) }

  function RelPathError(key: string): Error { BadRelPath(key) }

  function ErrorsOf<T>(r: Result<T, set<Error>>): set<Error> {
    if r.Failure? then r.error else {}
  }

  /** Each field of a checksum is taken as given, or defaults on its own. */
  function ParseChecksum(d: ChecksumDoc): (r: Checksum)
    ensures d.algorithm.Some? ==> r.algorithm == d.algorithm.value
    ensures d.algorithm.None? ==> r.algorithm == "sha256"
    ensures d.hash.Some? ==> r.hash == d.hash.value
    ensures d.hash.None? ==> r.hash == ""
  {
    Checksum(d.algorithm.GetOr(DefaultAlgorithm), d.hash.GetOr(""))
  }

  function ParseLink(d: LinkDoc): (r: Result<Link, set<Error>>)
    ensures r.Success? <==> d.uri.Some?
    ensures r.Success? ==> r.value.uri == d.uri.value
    ensures r.Success? ==> (r.value.checksum.Some? <==> d.checksum.Some?)
    ensures r.Success? && d.checksum.Some? ==> r.value.checksum.value == ParseChecksum(d.checksum.value)
    ensures r.Failure? ==> r.error == {MissingField("uri")}
  {
    match d.uri
    case None => Failure({MissingField("uri")})
    case Some(u) =>
      Success(Link(u, match d.checksum case None => None case Some(c) => Some(ParseChecksum(c))))
  }

  function ParseOptionalLink(d: Option<LinkDoc>): Result<Option<Link>, set<Error>> {
    match d
    case None => Success(None)
    case Some(l) => match ParseLink(l) case Success(v) => Success(Some(v)) case Failure(e) => Failure(e)
  }

  /** Every lexical or structural fault of a contract type document. */
  function ContractTypeErrors(d: ContractTypeDoc): set<Error> {
    var sources := d.sources.GetOr([]);
    var deployments := d.deployments.GetOr(map[]);
    (match d.compiler
     case None => {MissingField("compiler")}
     case Some(c) => if IsName(c) then {} else {BadName(c)})
    + (set i | 0 <= i < |sources| && !(IsRelPath(sources[i]) || IsDepPath(sources[i])) :: BadPath(sources[i]))
    + (set chain, j | chain in deployments && 0 <= j < |deployments[chain]| && !IsAddress(deployments[chain][j])
         :: BadAddress(deployments[chain][j]))
    + ErrorsOf(ParseOptionalLink(d.output))
  }

  function ParseContractType(d: ContractTypeDoc): (r: Result<ContractType, set<Error>>)
    ensures r.Success? <==>
      && d.compiler.Some? && IsName(d.compiler.value)
      && (forall i :: 0 <= i < |d.sources.GetOr([])| ==>
            IsRelPath(d.sources.GetOr([])[i]) || IsDepPath(d.sources.GetOr([])[i]))
      && (forall chain, j :: chain in d.deployments.GetOr(map[]) && 0 <= j < |d.deployments.GetOr(map[])[chain]| ==>
            IsAddress(d.deployments.GetOr(map[])[chain][j]))
      && (d.output.Some? ==> d.output.value.uri.Some?)
    ensures r.Success? ==> ValidContractType(r.value)
    ensures r.Success? ==> r.value.compiler == d.compiler.value
    ensures r.Success? ==> (r.value.output.Some? <==> d.output.Some?)
    ensures r.Success? && d.output.Some? ==> ParseLink(d.output.value) == Success(r.value.output.value)
    ensures r.Success? ==> r.value.sources == d.sources.GetOr([]) && r.value.deployments == d.deployments.GetOr(map[])
    ensures d.compiler.None? ==> r.Failure? && MissingField("compiler") in r.error
    ensures d.compiler.Some? && !IsName(d.compiler.value) ==> r.Failure? && BadName(d.compiler.value) in r.error
    ensures r.Failure? ==> r.error != {}
  {
    var errors := ContractTypeErrors(d);
    var sources := d.sources.GetOr([]);
    var deployments := d.deployments.GetOr(map[]);
    assert forall i :: 0 <= i < |sources| && !(IsRelPath(sources[i]) || IsDepPath(sources[i])) ==>
        BadPath(sources[i]) in errors;
    assert forall chain, j :: chain in deployments && 0 <= j < |deployments[chain]| && !IsAddress(deployments[chain][j]) ==>
        BadAddress(deployments[chain][j]) in errors;
    if errors != {} then Failure(errors)
    else
      Success(ContractType(d.compiler.value, sources, deployments, ParseOptionalLink(d.output).value))
  }

  function ParseSource(d: SourceDoc): (r: Result<Source, set<Error>>)
    ensures r.Success? <==> d.link.Some? && d.link.value.uri.Some?
    ensures r.Success? ==> ParseLink(d.link.value) == Success(r.value.link)
    ensures r.Success? ==> r.value.extra == d.extra
    ensures r.Failure? ==> r.error != {}
  {
    match d.link
    case None => Failure({MissingField("link")})
    case Some(l) => match ParseLink(l) case Success(v) => Success(Source(v, d.extra)) case Failure(e) => Failure(e)
  }

  function ParseCompiler(d: CompilerDoc): (r: Result<Compiler, set<Error>>)
    ensures r.Success? <==> d.bin.Some? && d.bin.value.uri.Some?
    ensures r.Success? ==> r.value.settings == d.settings.GetOr(map[])
    ensures r.Success? ==> ParseLink(d.bin.value) == Success(r.value.bin)
    ensures r.Failure? ==> r.error != {}
  {
    match d.bin
    case None => Failure({MissingField("bin")})
    case Some(l) =>
      match ParseLink(l)
      case Success(v) => Success(Compiler(v, d.settings.GetOr(map[])))
      case Failure(e) => Failure(e)
  }

  /**
   Decodes every entry of a mapping: each key must satisfy the key rule and
   each value must decode; otherwise all the faults found are reported.
   */
  function ParseEntries<D(!new), T>(
    entries: map<string, D>,
    keyOk: string -> bool,
    keyError: string -> Error,
    parse: D -> Result<T, set<Error>>): (r: Result<map<string, T>, set<Error>>)
    requires forall x :: parse(x).Failure? ==> parse(x).error != {}
    ensures r.Success? <==> forall k :: k in entries ==> keyOk(k) && parse(entries[k]).Success?
    ensures r.Success? ==> r.value.Keys == entries.Keys
    ensures r.Success? ==> forall k :: k in entries ==> parse(entries[k]) == Success(r.value[k])
    ensures r.Failure? ==> r.error != {}
    ensures forall k :: k in entries && !keyOk(k) ==> keyError(k) in ErrorsOf(r)
    ensures forall k :: k in entries ==> ErrorsOf(parse(entries[k])) <= ErrorsOf(r)
  {
    var errors :=
      (set k | k in entries && !keyOk(k) :: keyError(k))
      + (set k, e | k in entries && parse(entries[k]).Failure? && e in parse(entries[k]).error :: e);
    assert forall k :: k in entries && !keyOk(k) ==> keyError(k) in errors;
    assert forall k, e :: k in entries && parse(entries[k]).Failure? && e in parse(entries[k]).error ==> e in errors;
    if errors != {} then Failure(errors)
    else
      Success(map k | k in entries :: parse(entries[k]).value)
  }

  /** The format tag fault, if any. */
  function TagErrors(tag: Option<string>): (errors: set<Error>)
    ensures errors == {} <==> tag == Some(FormatTag)
  {
    match tag
    case None => {MissingField("manifest")}
    case Some(t) => if t == FormatTag then {} else {UnsupportedFormat(t)}
  }

  /**
   Decodes the fields of a manifest document, reporting all faults found in
   them together; references between the fields are not looked at here.
   */
  function ParseFields(d: ManifestDoc): (r: Result<Manifest, set<Error>>)
    ensures r.Success? <==>
      && d.manifest == Some(FormatTag)
      && ParseEntries(d.types.GetOr(map[]), IsName, NameError, ParseContractType).Success?
      && ParseEntries(d.sources.GetOr(map[]), IsRelPath, RelPathError, ParseSource).Success?
      && ParseEntries(d.compilers.GetOr(map[]), IsName, NameError, ParseCompiler).Success?
      && ParseEntries(d.dependencies.GetOr(map[]), IsName, NameError, ParseLink).Success?
    ensures r.Success? ==> r.value.name == d.name.GetOr("") && r.value.metadata == d.metadata.GetOr(map[])
    ensures r.Success? ==>
      && r.value.types == ParseEntries(d.types.GetOr(map[]), IsName, NameError, ParseContractType).value
      && r.value.sources == ParseEntries(d.sources.GetOr(map[]), IsRelPath, RelPathError, ParseSource).value
      && r.value.compilers == ParseEntries(d.compilers.GetOr(map[]), IsName, NameError, ParseCompiler).value
      && r.value.dependencies == ParseEntries(d.dependencies.GetOr(map[]), IsName, NameError, ParseLink).value
    ensures d.manifest != Some(FormatTag) ==> r.Failure?
    ensures d.manifest.None? ==> MissingField("manifest") in r.error
    ensures d.manifest.Some? && d.manifest.value != FormatTag ==> UnsupportedFormat(d.manifest.value) in r.error
    ensures r.Success? ==> FieldsValid(r.value)
    ensures r.Success? ==> r.value.extra == d.extra
    ensures r.Success? ==> r.value.sources.Keys == d.sources.GetOr(map[]).Keys
    ensures r.Success? ==> forall p :: p in r.value.sources ==> r.value.sources[p].extra == d.sources.GetOr(map[])[p].extra
    ensures r.Failure? ==> r.error != {}
  {
    var tagErrors := TagErrors(d.manifest);
    var types := ParseEntries(d.types.GetOr(map[]), IsName, NameError, ParseContractType);
    var sources := ParseEntries(d.sources.GetOr(map[]), IsRelPath, RelPathError, ParseSource);
    var compilers := ParseEntries(d.compilers.GetOr(map[]), IsName, NameError, ParseCompiler);
    var dependencies := ParseEntries(d.dependencies.GetOr(map[]), IsName, NameError, ParseLink);
    if tagErrors != {} || types.Failure? || sources.Failure? || compilers.Failure? || dependencies.Failure? then
      Failure(tagErrors + ErrorsOf(types) + ErrorsOf(sources) + ErrorsOf(compilers) + ErrorsOf(dependencies))
    else
      Success(Manifest(FormatTag, d.name.GetOr(""), d.metadata.GetOr(map[]),
                       types.value, sources.value, compilers.value, dependencies.value, d.extra))
  }

  /**
   Decodes a manifest document: the field rules first, then, for a document
   that passes them, the cross-reference pass.
   */
  function ParseManifest(d: ManifestDoc): (r: Result<Manifest, set<Error>>)
    ensures r.Success? <==> ParseFields(d).Success? && ReferencesResolve(ParseFields(d).value)
    ensures r.Success? ==> r == ParseFields(d)
    ensures d.manifest != Some(FormatTag) ==> r.Failure?
    ensures d.manifest.None? ==> MissingField("manifest") in r.error
    ensures d.manifest.Some? && d.manifest.value != FormatTag ==> UnsupportedFormat(d.manifest.value) in r.error
    ensures r.Success? ==> ValidManifest(r.value)
    ensures r.Success? ==> r.value.extra == d.extra
    ensures r.Success? ==> r.value.sources.Keys == d.sources.GetOr(map[]).Keys
    ensures r.Success? ==> forall p :: p in r.value.sources ==> r.value.sources[p].extra == d.sources.GetOr(map[])[p].extra
    ensures r.Failure? ==> r.error != {}
  {
    var fields := ParseFields(d);
    if fields.Failure? then Failure(fields.error)
    else
      var checked := ValidateTypes(fields.value);
      if checked.Success? then Success(checked.value)
      else
        UnresolvedNonEmpty(checked.error);
        Failure(UnresolvedAll(checked.error))
  }

  function UnresolvedAll(faults: set<Dangling>): set<Error> {
    set f | f in faults :: Unresolved(f)
  }

  lemma UnresolvedNonEmpty(faults: set<Dangling>)
    requires faults != {}
    ensures UnresolvedAll(faults) != {}
  {
    var f :| f in faults;
    assert Unresolved(f) in UnresolvedAll(faults);
  }

  // Documents that spell out every declared field and carry no field the
  // record drops: writing a record out always gives one.

  predicate ExplicitChecksum(d: ChecksumDoc) {
    d.algorithm.Some? && d.hash.Some? && d.ignored == map[]
  }

  predicate ExplicitLink(d: LinkDoc) {
    d.ignored == map[] && (d.checksum.Some? ==> ExplicitChecksum(d.checksum.value))
  }

  predicate ExplicitContractType(d: ContractTypeDoc) {
    && d.compiler.Some? && d.sources.Some? && d.deployments.Some? && d.ignored == map[]
    && (d.output.Some? ==> ExplicitLink(d.output.value))
  }

  predicate ExplicitSource(d: SourceDoc) {
    d.link.Some? && ExplicitLink(d.link.value)
  }

  predicate ExplicitCompiler(d: CompilerDoc) {
    d.bin.Some? && ExplicitLink(d.bin.value) && d.settings.Some? && d.ignored == map[]
  }

  predicate ExplicitManifest(d: ManifestDoc) {
    && d.manifest.Some? && d.name.Some? && d.metadata.Some?
    && d.types.Some? && (forall t :: t in d.types.value ==> ExplicitContractType(d.types.value[t]))
    && d.sources.Some? && (forall p :: p in d.sources.value ==> ExplicitSource(d.sources.value[p]))
    && d.compilers.Some? && (forall c :: c in d.compilers.value ==> ExplicitCompiler(d.compilers.value[c]))
    && d.dependencies.Some? && (forall k :: k in d.dependencies.value ==> ExplicitLink(d.dependencies.value[k]))
  }

  // The reverse direction: every declared field written out, defaults included.

  function ChecksumToDoc(c: Checksum): (r: ChecksumDoc)
    ensures ExplicitChecksum(r)
    ensures ParseChecksum(r) == c
  {
    ChecksumDoc(Some(c.algorithm), Some(c.hash), map[])
  }

  function LinkToDoc(l: Link): (r: LinkDoc)
    ensures ExplicitLink(r) && r.uri == Some(l.uri)
    ensures r.checksum.Some? <==> l.checksum.Some?
  {
    LinkDoc(Some(l.uri), match l.checksum case None => None case Some(c) => Some(ChecksumToDoc(c)), map[])
  }

  function ContractTypeToDoc(ct: ContractType): (r: ContractTypeDoc)
    ensures ExplicitContractType(r)
    ensures r.compiler == Some(ct.compiler) && r.sources == Some(ct.sources) && r.deployments == Some(ct.deployments)
    ensures r.output.Some? <==> ct.output.Some?
  {
    ContractTypeDoc(Some(ct.compiler), Some(ct.sources), Some(ct.deployments),
                    match ct.output case None => None case Some(l) => Some(LinkToDoc(l)), map[])
  }

  function SourceToDoc(s: Source): (r: SourceDoc)
    ensures ExplicitSource(r) && r.extra == s.extra
  {
    SourceDoc(Some(LinkToDoc(s.link)), s.extra)
  }

  function CompilerToDoc(c: Compiler): (r: CompilerDoc)
    ensures ExplicitCompiler(r) && r.settings == Some(c.settings)
  {
    CompilerDoc(Some(LinkToDoc(c.bin)), Some(c.settings), map[])
  }

  function ManifestToDoc(m: Manifest): (r: ManifestDoc)
    ensures ExplicitManifest(r)
    ensures r.manifest == Some(m.manifest) && r.name == Some(m.name) && r.metadata == Some(m.metadata)
    ensures r.types.value.Keys == m.types.Keys && r.sources.value.Keys == m.sources.Keys
    ensures r.compilers.value.Keys == m.compilers.Keys && r.dependencies.value.Keys == m.dependencies.Keys
    ensures r.extra == m.extra
    ensures WellFormedDoc(r) <==> ExtrasApart(m)
  {
    var sources := map p | p in m.sources :: SourceToDoc(m.sources[p]);
    assert forall p :: p in sources ==> sources[p].extra == m.sources[p].extra;
    assert Some(sources).GetOr(map[]) == sources;
    ManifestDoc(
      Some(m.manifest), Some(m.name), Some(m.metadata),
      Some(map t | t in m.types :: ContractTypeToDoc(m.types[t])),
      Some(sources),
      Some(map c | c in m.compilers :: CompilerToDoc(m.compilers[c])),
      Some(map k | k in m.dependencies :: LinkToDoc(m.dependencies[k])),
      m.extra)
  }
}

=== FILE: decode_laws.dfy ===
/**
 Properties of manifest decoding: decoding inverts writing a manifest out,
 what the defaults are, and how the package's own example fares.
 */
module DecodeLaws {
  import opened Wrappers
  import opened Schema
  import opened Lexical
  import opened CrossRef
  import opened Decode

  /** A contract type written out decodes back to itself exactly when its fields obey the lexical rules. */
  lemma ContractTypeRoundTrip(ct: ContractType)
    ensures ParseContractType(ContractTypeToDoc(ct)) == Success(ct) <==> ValidContractType(ct)
  {
    var d := ContractTypeToDoc(ct);
    if ValidContractType(ct) {
      assert (set i | 0 <= i < |ct.sources| && !(IsRelPath(ct.sources[i]) || IsDepPath(ct.sources[i])) :: BadPath(ct.sources[i])) == {};
      assert (set chain, j | chain in ct.deployments && 0 <= j < |ct.deployments[chain]| && !IsAddress(ct.deployments[chain][j])
                :: BadAddress(ct.deployments[chain][j])) == {};
      assert ContractTypeErrors(d) == {};
    }
  }

  /** Decoding entries that each decode to the matching entry of `entries` gives `entries`. */
  lemma EntriesRoundTrip<D(!new), T>(
    docs: map<string, D>,
    entries: map<string, T>,
    keyOk: string -> bool,
    keyError: string -> Error,
    parse: D -> Result<T, set<Error>>)
    requires forall x :: parse(x).Failure? ==> parse(x).error != {}
    requires docs.Keys == entries.Keys
    requires forall k :: k in docs ==> keyOk(k) && parse(docs[k]) == Success(entries[k])
    ensures ParseEntries(docs, keyOk, keyError, parse) == Success(entries)
  {
    var r := ParseEntries(docs, keyOk, keyError, parse);
    assert r.Success?;
    assert r.value == entries;
  }

  lemma LinkRoundTrip(l: Link)
    ensures ParseLink(LinkToDoc(l)) == Success(l)
  {
  }

  lemma SourceRoundTrip(s: Source)
    ensures ParseSource(SourceToDoc(s)) == Success(s)
  {
    LinkRoundTrip(s.link);
  }

  lemma CompilerRoundTrip(c: Compiler)
    ensures ParseCompiler(CompilerToDoc(c)) == Success(c)
  {
    LinkRoundTrip(c.bin);
  }

  lemma TypesRoundTrip(types: map<string, ContractType>)
    requires forall k :: k in types ==> IsName(k) && ValidContractType(types[k])
    ensures ParseEntries(map k | k in types :: ContractTypeToDoc(types[k]), IsName, NameError, ParseContractType)
         == Success(types)
  {
    var docs := map k | k in types :: ContractTypeToDoc(types[k]);
    forall k | k in docs ensures IsName(k) && ParseContractType(docs[k]) == Success(types[k]) {
      ContractTypeRoundTrip(types[k]);
    }
    EntriesRoundTrip(docs, types, IsName, NameError, ParseContractType);
  }

  lemma SourcesRoundTrip(sources: map<string, Source>)
    requires forall k :: k in sources ==> IsRelPath(k)
    ensures ParseEntries(map k | k in sources :: SourceToDoc(sources[k]), IsRelPath, RelPathError, ParseSource)
         == Success(sources)
  {
    var docs := map k | k in sources :: SourceToDoc(sources[k]);
    forall k | k in docs ensures IsRelPath(k) && ParseSource(docs[k]) == Success(sources[k]) {
      SourceRoundTrip(sources[k]);
    }
    EntriesRoundTrip(docs, sources, IsRelPath, RelPathError, ParseSource);
  }

  lemma CompilersRoundTrip(compilers: map<string, Compiler>)
    requires forall k :: k in compilers ==> IsName(k)
    ensures ParseEntries(map k | k in compilers :: CompilerToDoc(compilers[k]), IsName, NameError, ParseCompiler)
         == Success(compilers)
  {
    var docs := map k | k in compilers :: CompilerToDoc(compilers[k]);
    forall k | k in docs ensures IsName(k) && ParseCompiler(docs[k]) == Success(compilers[k]) {
      CompilerRoundTrip(compilers[k]);
    }
    EntriesRoundTrip(docs, compilers, IsName, NameError, ParseCompiler);
  }

  lemma DependenciesRoundTrip(dependencies: map<string, Link>)
    requires forall k :: k in dependencies ==> IsName(k)
    ensures ParseEntries(map k | k in dependencies :: LinkToDoc(dependencies[k]), IsName, NameError, ParseLink)
         == Success(dependencies)
  {
    var docs := map k | k in dependencies :: LinkToDoc(dependencies[k]);
    forall k | k in docs ensures IsName(k) && ParseLink(docs[k]) == Success(dependencies[k]) {
      LinkRoundTrip(dependencies[k]);
    }
    EntriesRoundTrip(docs, dependencies, IsName, NameError, ParseLink);
  }

  /** The written-out fields of a manifest that obeys the field rules decode back to it. */
  lemma FieldsRoundTrip(m: Manifest)
    requires FieldsValid(m)
    ensures ParseFields(ManifestToDoc(m)) == Success(m)
  {
    TypesRoundTrip(m.types);
    SourcesRoundTrip(m.sources);
    CompilersRoundTrip(m.compilers);
    DependenciesRoundTrip(m.dependencies);
  }

  /**
   Writing a manifest out and decoding it gives the same manifest back
   exactly when the manifest satisfies every rule decoding enforces.
   */
  lemma ManifestRoundTrip(m: Manifest)
    ensures ParseManifest(ManifestToDoc(m)) == Success(m) <==> ValidManifest(m)
  {
    if ValidManifest(m) {
      FieldsRoundTrip(m);
    }
  }

  /** Decoding a manifest and writing it out again loses nothing the next decode would see. */
  lemma ReparseStable(d: ManifestDoc)
    requires ParseManifest(d).Success?
    ensures ParseManifest(ManifestToDoc(ParseManifest(d).value)) == ParseManifest(d)
  {
    ManifestRoundTrip(ParseManifest(d).value);
  }

  /**
   Decoding a well-formed document gives a manifest whose extension fields
   are named apart from the declared ones; writing it out keeps it well formed.
   */
  lemma DecodeKeepsExtrasApart(d: ManifestDoc)
    requires WellFormedDoc(d) && ParseManifest(d).Success?
    ensures ExtrasApart(ParseManifest(d).value)
    ensures WellFormedDoc(ManifestToDoc(ParseManifest(d).value))
  {
    var m := ParseManifest(d).value;
    assert forall p :: p in m.sources ==> m.sources[p].extra == d.sources.GetOr(map[])[p].extra;
  }

  // Documents that spell out every declared field and carry no field the
  // record drops: for these, decoding loses nothing at all.

  lemma ExplicitContractTypeRoundTrip(d: ContractTypeDoc)
    requires ExplicitContractType(d) && ParseContractType(d).Success?
    ensures ContractTypeToDoc(ParseContractType(d).value) == d
  {
    var ct := ParseContractType(d).value;
    assert ContractTypeErrors(d) == {};
    assert ct.compiler == d.compiler.value;
    assert ParseOptionalLink(d.output).Success?;
    assert ct.output == ParseOptionalLink(d.output).value;
  }

  lemma ExplicitTypesRoundTrip(docs: map<string, ContractTypeDoc>, types: map<string, ContractType>)
    requires docs.Keys == types.Keys
    requires forall t :: t in docs ==> ExplicitContractType(docs[t]) && ParseContractType(docs[t]) == Success(types[t])
    ensures (map t | t in types :: ContractTypeToDoc(types[t])) == docs
  {
    forall t | t in docs ensures ContractTypeToDoc(types[t]) == docs[t] {
      ExplicitContractTypeRoundTrip(docs[t]);
    }
  }

  lemma ExplicitSourcesRoundTrip(docs: map<string, SourceDoc>, sources: map<string, Source>)
    requires docs.Keys == sources.Keys
    requires forall p :: p in docs ==> ExplicitSource(docs[p]) && ParseSource(docs[p]) == Success(sources[p])
    ensures (map p | p in sources :: SourceToDoc(sources[p])) == docs
  {
  }

  lemma ExplicitCompilersRoundTrip(docs: map<string, CompilerDoc>, compilers: map<string, Compiler>)
    requires docs.Keys == compilers.Keys
    requires forall c :: c in docs ==> ExplicitCompiler(docs[c]) && ParseCompiler(docs[c]) == Success(compilers[c])
    ensures (map c | c in compilers :: CompilerToDoc(compilers[c])) == docs
  {
  }

  lemma ExplicitLinksRoundTrip(docs: map<string, LinkDoc>, links: map<string, Link>)
    requires docs.Keys == links.Keys
    requires forall k :: k in docs ==> ExplicitLink(docs[k]) && ParseLink(docs[k]) == Success(links[k])
    ensures (map k | k in links :: LinkToDoc(links[k])) == docs
  {
  }

  /**
   A document that spells out every declared field and has no dropped
   fields is written back out exactly as it came in, extension fields included.
   */
  lemma ExplicitDocRoundTrip(d: ManifestDoc)
    requires ExplicitManifest(d) && ParseManifest(d).Success?
    ensures ManifestToDoc(ParseManifest(d).value) == d
  {
    var m := ParseManifest(d).value;
    assert ParseFields(d) == Success(m);
    var types := ParseEntries(d.types.value, IsName, NameError, ParseContractType);
    var sources := ParseEntries(d.sources.value, IsRelPath, RelPathError, ParseSource);
    var compilers := ParseEntries(d.compilers.value, IsName, NameError, ParseCompiler);
    var dependencies := ParseEntries(d.dependencies.value, IsName, NameError, ParseLink);
    assert m.types == types.value && m.sources == sources.value;
    assert m.compilers == compilers.value && m.dependencies == dependencies.value;
    ExplicitTypesRoundTrip(d.types.value, m.types);
    ExplicitSourcesRoundTrip(d.sources.value, m.sources);
    ExplicitCompilersRoundTrip(d.compilers.value, m.compilers);
    ExplicitLinksRoundTrip(d.dependencies.value, m.dependencies);
  }

  // What each record makes of a field the document leaves out: a default,
  // or a failure for the fields that have none.

  /** Each checksum field defaults on its own, whatever the other holds. */
  lemma ChecksumDefaults(algorithm: string, hash: string, ignored: map<string, Json>)
    ensures ParseChecksum(ChecksumDoc(None, None, ignored)) == Checksum("sha256", "")
    ensures ParseChecksum(ChecksumDoc(None, Some(hash), ignored)) == Checksum("sha256", hash)
    ensures ParseChecksum(ChecksumDoc(Some(algorithm), None, ignored)) == Checksum(algorithm, "")
    ensures ParseChecksum(ChecksumDoc(Some(algorithm), Some(hash), ignored)) == Checksum(algorithm, hash)
  {
  }

  lemma LinkFields(uri: string, ignored: map<string, Json>)
    ensures ParseLink(LinkDoc(Some(uri), None, ignored)) == Success(Link(uri, None))
    ensures ParseLink(LinkDoc(None, None, ignored)) == Failure({MissingField("uri")})
  {
  }

  lemma ContractTypeFields(compiler: string, ignored: map<string, Json>)
    ensures IsName(compiler) ==>
      ParseContractType(ContractTypeDoc(Some(compiler), None, None, None, ignored))
        == Success(ContractType(compiler, [], map[], None))
    ensures ParseContractType(ContractTypeDoc(None, None, None, None, ignored)) == Failure({MissingField("compiler")})
  {
    assert ContractTypeErrors(ContractTypeDoc(None, None, None, None, ignored)) == {MissingField("compiler")};
    assert IsName(compiler) ==> ContractTypeErrors(ContractTypeDoc(Some(compiler), None, None, None, ignored)) == {};
  }

  lemma SourceFields(link: LinkDoc, extra: map<string, Json>)
    ensures ParseSource(SourceDoc(None, extra)) == Failure({MissingField("link")})
    ensures link.uri.Some? ==> ParseSource(SourceDoc(Some(link), extra)).Success?
    ensures link.uri.Some? ==> ParseSource(SourceDoc(Some(link), extra)).value.extra == extra
  {
  }

  lemma CompilerFields(bin: Link, ignored: map<string, Json>)
    ensures ParseCompiler(CompilerDoc(Some(LinkToDoc(bin)), None, ignored)) == Success(Compiler(bin, map[]))
    ensures ParseCompiler(CompilerDoc(None, None, ignored)) == Failure({MissingField("bin")})
  {
    LinkRoundTrip(bin);
  }

  /** A document holding only the format tag decodes to the empty manifest. */
  lemma ManifestDefaults(extra: map<string, Json>)
    ensures ParseManifest(ManifestDoc(Some("dpm/v1"), None, None, None, None, None, None, extra))
        == Success(Manifest("dpm/v1", "", map[], map[], map[], map[], map[], extra))
  {
    var empty := Manifest("dpm/v1", "", map[], map[], map[], map[], map[], extra);
    assert ParseFields(ManifestDoc(Some("dpm/v1"), None, None, None, None, None, None, extra)) == Success(empty);
    assert ReferencesResolve(empty);
  }

  /**
   A dependency path whose first segment is not a name (`../lib/a.sol`)
   never resolves: dependency keys are names.
   */
  lemma ForeignSegmentNeverResolves(m: Manifest, src: string)
    requires FieldsValid(m)
    requires !StartsWith(src, "./") && !IsName(FirstSegment(src))
    ensures !SourceResolves(m, src)
  {
    if SourceResolves(m, src) {
      var dep :| LeadsToSlash(src, dep) && dep in m.dependencies;
      LeadsToSlashIsFirstSegment(src, dep);
    }
  }

  /** The package's documented example, with the compiler name a parameter. */
  function Example(compiler: string): Manifest {
    var link := Link("ipfs://QmbBVxERnZ2ciQuRuZ45czd2DRgouCLEhibLWtC2CrH2j4", None);
    Manifest(
      FormatTag, "", map[],
      map["MyContractType" := ContractType(compiler, ["./file.sol", "depA/file.sol"], map[], Some(link))],
      map["./file.sol" := Source(link, map[])],
      map[compiler := Compiler(link, map[])],
      map["depA" := link],
      map[])
  }

  lemma ExampleFieldsValid()
    ensures FieldsValid(Example("solc"))
  {
    var m := Example("solc");
    PathExamples();
    SourcePathUnion("./file.sol");
    assert IsName("MyContractType") && IsName("solc") && IsName("depA");
    assert ValidContractType(m.types["MyContractType"]);
  }

  lemma ExampleResolves()
    ensures ReferencesResolve(Example("solc"))
  {
    var m := Example("solc");
    assert "depA/file.sol"[..4] == "depA";
    assert LeadsToSlash("depA/file.sol", "depA");
    assert "./file.sol"[..2] == "./";
    assert "depA/file.sol"[..2] != "./" by { assert "depA/file.sol"[0] == 'd'; }
    assert StartsWith("./file.sol", "./") && !StartsWith("depA/file.sol", "./");
    assert SourceResolves(m, "./file.sol") && SourceResolves(m, "depA/file.sol");
    var ct := m.types["MyContractType"];
    assert forall i :: 0 <= i < |ct.sources| ==> SourceResolves(m, ct.sources[i]);
  }

  /** With a compiler name made of name characters, the example decodes. */
  lemma ExampleAccepted()
    ensures ParseManifest(ManifestToDoc(Example("solc"))) == Success(Example("solc"))
  {
    ExampleFieldsValid();
    ExampleResolves();
    ManifestRoundTrip(Example("solc"));
  }

  /** With the tag added, the example still fails: its compiler `solc-0.8.17` is not a name. */
  lemma TaggedExampleRejected()
    ensures ParseManifest(ManifestToDoc(Example("solc-0.8.17"))).Failure?
    ensures BadName("solc-0.8.17") in ParseManifest(ManifestToDoc(Example("solc-0.8.17"))).error
  {
    var d := ManifestToDoc(Example("solc-0.8.17"));
    NameExamples();
    var compilers := ParseEntries(d.compilers.value, IsName, NameError, ParseCompiler);
    assert "solc-0.8.17" in d.compilers.value;
    assert BadName("solc-0.8.17") in ErrorsOf(compilers);
  }

  /**
   The package's example document as written, with the tag and the compiler
   name as parameters: no name or metadata, no deployments or settings.
   */
  function ExampleDoc(tag: Option<string>, compiler: string): ManifestDoc {
    var link := LinkDoc(Some("ipfs://QmbBVxERnZ2ciQuRuZ45czd2DRgouCLEhibLWtC2CrH2j4"), None, map[]);
    ManifestDoc(
      tag, None, None,
      Some(map["MyContractType" := ContractTypeDoc(Some(compiler), Some(["./file.sol", "depA/file.sol"]), None, Some(link), map[])]),
      Some(map["./file.sol" := SourceDoc(Some(link), map[])]),
      Some(map[compiler := CompilerDoc(Some(link), None, map[])]),
      Some(map["depA" := link]),
      map[])
  }

  /** The example exactly as written: no format tag, and the compiler `solc-0.8.17`. */
  function DocumentedExample(): ManifestDoc {
    ExampleDoc(None, "solc-0.8.17")
  }

  /** The example's one contract-type document decodes to the example's contract type. */
  lemma ExampleContractTypeDecodes()
    ensures ParseContractType(ExampleDoc(Some(FormatTag), "solc").types.value["MyContractType"])
         == Success(Example("solc").types["MyContractType"])
  {
    var d := ExampleDoc(Some(FormatTag), "solc").types.value["MyContractType"];
    ExampleFieldsValid();
    assert ValidContractType(Example("solc").types["MyContractType"]);
    assert ContractTypeErrors(d) == {};
  }

  // Each mapping of the example document decodes to the example's mapping.

  lemma ExampleTypesDecode()
    ensures ParseEntries(ExampleDoc(Some(FormatTag), "solc").types.value, IsName, NameError, ParseContractType)
         == Success(Example("solc").types)
  {
    NameExamples();
    ExampleContractTypeDecodes();
    EntriesRoundTrip(ExampleDoc(Some(FormatTag), "solc").types.value, Example("solc").types,
                     IsName, NameError, ParseContractType);
  }

  lemma ExampleSourcesDecode()
    ensures ParseEntries(ExampleDoc(Some(FormatTag), "solc").sources.value, IsRelPath, RelPathError, ParseSource)
         == Success(Example("solc").sources)
  {
    PathExamples();
    EntriesRoundTrip(ExampleDoc(Some(FormatTag), "solc").sources.value, Example("solc").sources,
                     IsRelPath, RelPathError, ParseSource);
  }

  lemma ExampleCompilersDecode()
    ensures ParseEntries(ExampleDoc(Some(FormatTag), "solc").compilers.value, IsName, NameError, ParseCompiler)
         == Success(Example("solc").compilers)
  {
    assert IsName("solc");
    EntriesRoundTrip(ExampleDoc(Some(FormatTag), "solc").compilers.value, Example("solc").compilers,
                     IsName, NameError, ParseCompiler);
  }

  lemma ExampleDependenciesDecode()
    ensures ParseEntries(ExampleDoc(Some(FormatTag), "solc").dependencies.value, IsName, NameError, ParseLink)
         == Success(Example("solc").dependencies)
  {
    assert IsName("depA");
    EntriesRoundTrip(ExampleDoc(Some(FormatTag), "solc").dependencies.value, Example("solc").dependencies,
                     IsName, NameError, ParseLink);
  }

  /** The example document's fields decode to the example, omitted fields defaulted. */
  lemma ExampleDocFields()
    ensures ParseFields(ExampleDoc(Some(FormatTag), "solc")) == Success(Example("solc"))
  {
    var d := ExampleDoc(Some(FormatTag), "solc");
    ExampleTypesDecode();
    ExampleSourcesDecode();
    ExampleCompilersDecode();
    ExampleDependenciesDecode();
    var r := ParseFields(d);
    assert r.Success?;
    assert r.value.name == "" && r.value.metadata == map[];
  }

  /**
   With the tag added and the compiler named `solc`, the example document
   decodes, its omitted fields taking their defaults, to `Example("solc")`.
   */
  lemma ExampleDocAccepted()
    ensures ParseManifest(ExampleDoc(Some(FormatTag), "solc")) == Success(Example("solc"))
  {
    ExampleDocFields();
    ExampleResolves();
  }

  /** The example as written is rejected twice over: the tag is missing and the compiler is not a name. */
  lemma DocumentedExampleRejected()
    ensures ParseManifest(DocumentedExample()).Failure?
    ensures MissingField("manifest") in ParseManifest(DocumentedExample()).error
    ensures BadName("solc-0.8.17") in ParseManifest(DocumentedExample()).error
  {
    var d := DocumentedExample();
    NameExamples();
    var compilers := ParseEntries(d.compilers.value, IsName, NameError, ParseCompiler);
    assert "solc-0.8.17" in d.compilers.value;
    assert BadName("solc-0.8.17") in ErrorsOf(compilers);
  }
}

=== FILE: lexical.dfy ===
/**
 The package's constrained strings: `Name`, `DepPath`, `RelPath` and
 `Address`. Each is given as a plain character-class predicate and proved
 equal to the language of the regular expression the package writes for it.
 */
module Lexical {
  import opened Regex

  predicate IsNameChar(c: char) {
    c == '-' || 'A' <= c <= 'Z' || 'a' <= c <= 'z' || '0' <= c <= '9' || c == '_'
  }

  predicate IsPathChar(c: char) {
    'A' <= c <= 'Z' || 'a' <= c <= 'z' || '0' <= c <= '9' || c == '.' || c == '/'
  }

  predicate IsLower(c: char) {
    'a' <= c <= 'z'
  }

  predicate IsHexDigit(c: char) {
    'A' <= c <= 'F' || 'a' <= c <= 'f' || '0' <= c <= '9'
  }

  /** `[-A-Za-z0-9_]*` */
  const NamePattern: Re := Star(Class(IsNameChar))

  /** `[A-Za-z0-9./]*\.[a-z]*` */
  const DepPathPattern: Re := Cat(Star(Class(IsPathChar)), Cat(Lit('.'), Star(Class(IsLower))))

  /** `\./[A-Za-z0-9./]*\.[a-z]*` */
  const RelPathPattern: Re := Cat(Lit('.'), Cat(Lit('/'), DepPathPattern))

  /** `0x[A-Fa-f0-9]{40}` */
  const AddressPattern: Re := Cat(Lit('0'), Cat(Lit('x'), Rep(Class(IsHexDigit), 40)))

  /** Identifier: any run of name characters, the empty one included. */
  predicate IsName(s: string) {
    forall i :: 0 <= i < |s| ==> IsNameChar(s[i])
  }

  /** Some '.' in `s` is followed only by lower-case letters up to the end. */
  predicate HasLowerExtension(s: string) {
    exists k :: 0 <= k < |s| && s[k] == '.' && forall j :: k < j < |s| ==> IsLower(s[j])
  }

  /** Dependency-relative source path: path characters ending in a (possibly empty) lower-case extension. */
  predicate IsDepPath(s: string) {
    (forall i :: 0 <= i < |s| ==> IsPathChar(s[i])) && HasLowerExtension(s)
  }

  /** Local source path: `./` followed by what a dependency path allows. */
  predicate IsRelPath(s: string) {
    |s| >= 2 && s[0] == '.' && s[1] == '/' && IsDepPath(s[2..])
  }

  /** Account address: `0x` and forty hexadecimal digits of either case. */
  predicate IsAddress(s: string) {
    |s| == 42 && s[0] == '0' && s[1] == 'x' && forall i :: 2 <= i < |s| ==> IsHexDigit(s[i])
  }

  lemma NameMatchesPattern(s: string)
    ensures IsName(s) <==> Lang(NamePattern, s)
  {
    StarOfClass(IsNameChar, s);
  }

  lemma DepPathMatchesPattern(s: string)
    ensures IsDepPath(s) <==> Lang(DepPathPattern, s)
  {
    var ext := Star(Class(IsLower));
    if IsDepPath(s) {
      var k :| 0 <= k < |s| && s[k] == '.' && forall j :: k < j < |s| ==> IsLower(s[j]);
      StarOfClass(IsPathChar, s[..k]);
      StarOfClass(IsLower, s[k + 1..]);
      assert s[k..][1..] == s[k + 1..];
      LitThen('.', ext, s[k..]);
      assert Lang(Star(Class(IsPathChar)), s[..k]) && Lang(Cat(Lit('.'), ext), s[k..]);
    }
    if Lang(DepPathPattern, s) {
      var k :| 0 <= k <= |s| && Lang(Star(Class(IsPathChar)), s[..k]) && Lang(Cat(Lit('.'), ext), s[k..]);
      LitThen('.', ext, s[k..]);
      assert s[k..][1..] == s[k + 1..];
      StarOfClass(IsPathChar, s[..k]);
      StarOfClass(IsLower, s[k + 1..]);
      assert s[k] == '.';
      forall j | k < j < |s| ensures IsLower(s[j]) {
        assert s[j] == s[k + 1..][j - k - 1];
      }
      forall i | 0 <= i < |s| ensures IsPathChar(s[i]) {
        if i < k { assert s[i] == s[..k][i]; }
      }
    }
  }

  lemma RelPathMatchesPattern(s: string)
    ensures IsRelPath(s) <==> Lang(RelPathPattern, s)
  {
    LitThen('.', Cat(Lit('/'), DepPathPattern), s);
    if |s| > 0 {
      LitThen('/', DepPathPattern, s[1..]);
      if |s| > 1 {
        assert s[1..][1..] == s[2..];
        DepPathMatchesPattern(s[2..]);
      }
    }
  }

  lemma AddressMatchesPattern(s: string)
    ensures IsAddress(s) <==> Lang(AddressPattern, s)
  {
    LitThen('0', Cat(Lit('x'), Rep(Class(IsHexDigit), 40)), s);
    if |s| > 0 {
      LitThen('x', Rep(Class(IsHexDigit), 40), s[1..]);
      if |s| > 1 {
        assert s[1..][1..] == s[2..];
        RepOfClass(IsHexDigit, 40, s[2..]);
        if forall i :: 0 <= i < |s[2..]| ==> IsHexDigit(s[2..][i]) {
          forall i | 2 <= i < |s| ensures IsHexDigit(s[i]) {
            assert s[i] == s[2..][i - 2];
          }
        }
      }
    }
  }

  /** Every local path is also a dependency path, so `RelPath | DepPath` accepts exactly the dependency paths. */
  lemma RelPathIsDepPath(s: string)
    requires IsRelPath(s)
    ensures IsDepPath(s)
  {
    var t := s[2..];
    var k :| 0 <= k < |t| && t[k] == '.' && forall j :: k < j < |t| ==> IsLower(t[j]);
    assert s[k + 2] == '.';
    forall j | k + 2 < j < |s| ensures IsLower(s[j]) {
      assert s[j] == t[j - 2];
    }
    forall i | 0 <= i < |s| ensures IsPathChar(s[i]) {
      if i >= 2 { assert s[i] == t[i - 2]; }
    }
  }

  /** A contract type's source path is `RelPath | DepPath`; the union is just `DepPath`. */
  lemma SourcePathUnion(s: string)
    ensures IsRelPath(s) || IsDepPath(s) <==> IsDepPath(s)
  {
    if IsRelPath(s) {
      RelPathIsDepPath(s);
    }
  }

  /** How appending one character changes whether the text ends in a lower-case extension. */
  lemma ExtensionStep(t: string, c: char)
    ensures HasLowerExtension(t + [c]) <==> c == '.' || (IsLower(c) && HasLowerExtension(t))
  {
    var u := t + [c];
    if HasLowerExtension(u) && c != '.' {
      var k :| 0 <= k < |u| && u[k] == '.' && forall j :: k < j < |u| ==> IsLower(u[j]);
      assert k < |t|;
      assert IsLower(u[|t|]);
      forall j | k < j < |t| ensures IsLower(t[j]) {
        assert t[j] == u[j];
      }
      assert t[k] == '.';
    }
    if c == '.' {
      assert u[|t|] == '.';
    } else if IsLower(c) && HasLowerExtension(t) {
      var k :| 0 <= k < |t| && t[k] == '.' && forall j :: k < j < |t| ==> IsLower(t[j]);
      assert u[k] == '.';
      forall j | k < j < |u| ensures IsLower(u[j]) {
        if j < |t| { assert u[j] == t[j]; }
      }
    }
  }

  /** One left-to-right pass deciding `DepPath`, remembering only whether the text since the last '.' is lower-case. */
  method MatchDepPath(s: string) returns (ok: bool)
    ensures ok <==> IsDepPath(s)
  {
    var extension := false;
    var i := 0;
    while i < |s|
      invariant 0 <= i <= |s|
      invariant forall j :: 0 <= j < i ==> IsPathChar(s[j])
      invariant extension <==> HasLowerExtension(s[..i])
    {
      var c := s[i];
      if !IsPathChar(c) {
        return false;
      }
      assert s[..i + 1] == s[..i] + [c];
      ExtensionStep(s[..i], c);
      if c == '.' {
        extension := true;
      } else if !IsLower(c) {
        extension := false;
      }
      i := i + 1;
    }
    assert s[..i] == s;
    return extension;
  }

  /** `RelPath`: the `./` prefix, then the dependency-path scan on the rest. */
  method MatchRelPath(s: string) returns (ok: bool)
    ensures ok <==> IsRelPath(s)
  {
    if |s| < 2 || s[0] != '.' || s[1] != '/' {
      return false;
    }
    ok := MatchDepPath(s[2..]);
  }

  // Python's `$` also matches before a final newline, so each pattern as
  // written accepts one string more per valid value: the value plus "\n".

  lemma NameAcceptsTrailingNewline(n: string)
    requires IsName(n)
    ensures AnchoredMatch(NamePattern, n + "\n") && !IsName(n + "\n")
  {
    var s := n + "\n";
    assert s[..|s| - 1] == n;
    NameMatchesPattern(n);
    assert !IsNameChar(s[|s| - 1]);
  }

  lemma DepPathAcceptsTrailingNewline(p: string)
    requires IsDepPath(p)
    ensures AnchoredMatch(DepPathPattern, p + "\n") && !IsDepPath(p + "\n")
  {
    var s := p + "\n";
    assert s[..|s| - 1] == p;
    DepPathMatchesPattern(p);
    assert !IsPathChar(s[|s| - 1]);
  }

  lemma RelPathAcceptsTrailingNewline(p: string)
    requires IsRelPath(p)
    ensures AnchoredMatch(RelPathPattern, p + "\n") && !IsRelPath(p + "\n")
  {
    var s := p + "\n";
    assert s[..|s| - 1] == p;
    RelPathMatchesPattern(p);
    assert s[2..] == p[2..] + "\n";
    assert !IsPathChar(s[2..][|s[2..]| - 1]);
  }

  /** The fixed-length address rule admits a 43-character string. */
  lemma AddressAcceptsTrailingNewline(a: string)
    requires IsAddress(a)
    ensures AnchoredMatch(AddressPattern, a + "\n") && |a + "\n"| == 43 && !IsAddress(a + "\n")
  {
    var s := a + "\n";
    assert s[..|s| - 1] == a;
    AddressMatchesPattern(a);
  }

  /** Three characters are too short for an address, with or without the newline allowance. */
  lemma ShortAddressRejected()
    ensures !IsAddress("0xABC") && !AnchoredMatch(AddressPattern, "0xABC")
  {
    AddressMatchesPattern("0xABC");
  }

  /** Forty hexadecimal digits of mixed case after `0x` form an address. */
  lemma MixedCaseAddressAccepted()
    ensures IsAddress("0xAbCdEf0123456789aBcDeF0123456789ABCDEFab")
  {
    var s := "0xAbCdEf0123456789aBcDeF0123456789ABCDEFab";
    assert |s| == 42;
    forall i | 2 <= i < |s| ensures IsHexDigit(s[i]) {
    }
  }

  /** The quantifier is `*`: the empty identifier is accepted; a '.' is not a name character. */
  lemma NameExamples()
    ensures IsName("") && IsName("MyContractType") && !IsName("solc-0.8.17")
  {
    assert !IsNameChar("solc-0.8.17"[6]);
  }

  /** The extension quantifier is `*` too: a path may end in a bare '.'. */
  lemma PathExamples()
    ensures IsRelPath("./file.sol") && IsDepPath("depA/file.sol") && IsDepPath("depA/.")
    ensures !IsDepPath("depA/file") && !IsDepPath("depA/file.Sol")
  {
    assert "./file.sol"[2..] == "file.sol";
    assert "file.sol"[4] == '.';
    assert "depA/file.sol"[9] == '.';
    assert "depA/."[5] == '.';
    assert forall k :: 0 <= k < |"depA/file"| ==> "depA/file"[k] != '.';
    assert !IsLower("depA/file.Sol"[10]);
  }
}

=== FILE: regex.dfy ===
/**
 A small regular-expression language, enough to write down the four
 patterns the package's constrained strings use, together with the way
 Python's `re.match` reads a pattern anchored as `^r$`.
 */
module Regex {

  /** Literals, character classes, Kleene star, concatenation and `{n}`. */
  datatype Re =
    | Lit(c: char)
    | Class(member: char -> bool)
    | Star(body: Re)
    | Cat(left: Re, right: Re)
    | Rep(body: Re, count: nat)

  /** `s` belongs to the language of `r` (the whole of `s` is matched). */
  ghost predicate Lang(r: Re, s: string)
    decreases r, 0, 0
  {
    match r
    case Lit(c) => s == [c]
    case Class(p) => |s| == 1 && p(s[0])
    case Star(x) => StarLang(x, s)
    case Cat(a, b) => exists k :: 0 <= k <= |s| && Lang(a, s[..k]) && Lang(b, s[k..])
    case Rep(x, n) => RepLang(x, n, s)
  }

  /** `s` is a concatenation of zero or more non-empty words of `x`. */
  ghost predicate StarLang(x: Re, s: string)
    decreases x, 1, |s|
  {
    s == [] || exists k :: 1 <= k <= |s| && Lang(x, s[..k]) && StarLang(x, s[k..])
  }

  /** `s` is a concatenation of exactly `n` words of `x`. */
  ghost predicate RepLang(x: Re, n: nat, s: string)
    decreases x, 1, n
  {
    if n == 0 then s == []
    else exists k :: 0 <= k <= |s| && Lang(x, s[..k]) && RepLang(x, n - 1, s[k..])
  }

  /**
   What `re.match` accepts for the pattern `^r$` without flags: `$` matches
   at the end of the string and also just before a newline that ends it.
   */
  ghost predicate AnchoredMatch(r: Re, s: string) {
    || Lang(r, s)
    || (|s| > 0 && s[|s| - 1] == '\n' && Lang(r, s[..|s| - 1]))
  }

  /** A starred character class matches exactly the strings made of its members. */
  lemma {:induction false} StarOfClass(p: char -> bool, s: string)
    ensures StarLang(Class(p), s) <==> forall i :: 0 <= i < |s| ==> p(s[i])
    decreases |s|
  {
    if s != [] {
      StarOfClass(p, s[1..]);
      if StarLang(Class(p), s) {
        var k :| 1 <= k <= |s| && Lang(Class(p), s[..k]) && StarLang(Class(p), s[k..]);
        assert k == 1 && p(s[0]);
        forall i | 0 <= i < |s| ensures p(s[i]) {
          if i > 0 { assert s[i] == s[1..][i - 1]; }
        }
      }
      if forall i :: 0 <= i < |s| ==> p(s[i]) {
        assert Lang(Class(p), s[..1]);
        assert forall i :: 0 <= i < |s[1..]| ==> p(s[1..][i]);
      }
    }
  }

  /** `{n}` applied to a character class matches exactly the n-character strings of members. */
  lemma {:induction false} RepOfClass(p: char -> bool, n: nat, s: string)
    ensures RepLang(Class(p), n, s) <==> |s| == n && forall i :: 0 <= i < |s| ==> p(s[i])
    decreases n
  {
    if n > 0 {
      if RepLang(Class(p), n, s) {
        var k :| 0 <= k <= |s| && Lang(Class(p), s[..k]) && RepLang(Class(p), n - 1, s[k..]);
        assert k == 1 && p(s[0]);
        RepOfClass(p, n - 1, s[1..]);
        forall i | 0 <= i < |s| ensures p(s[i]) {
          if i > 0 { assert s[i] == s[1..][i - 1]; }
        }
      }
      if |s| == n && forall i :: 0 <= i < |s| ==> p(s[i]) {
        RepOfClass(p, n - 1, s[1..]);
        assert Lang(Class(p), s[..1]);
        assert forall i :: 0 <= i < |s[1..]| ==> p(s[1..][i]);
      }
    }
  }

  /** A pattern that starts with a literal character consumes exactly that character first. */
  lemma LitThen(c: char, r: Re, s: string)
    ensures Lang(Cat(Lit(c), r), s) <==> |s| > 0 && s[0] == c && Lang(r, s[1..])
  {
    if Lang(Cat(Lit(c), r), s) {
      var k :| 0 <= k <= |s| && Lang(Lit(c), s[..k]) && Lang(r, s[k..]);
      assert s[..k] == [c];
      assert k == 1;
    }
    if |s| > 0 && s[0] == c && Lang(r, s[1..]) {
      assert s[..1] == [c];
    }
  }
}

=== FILE: schema.dfy ===
/**
 The typed records of a package manifest, as they stand once a document
 has been decoded: checksums and links, contract types, sources,
 compilers and the manifest itself.
 */
module Schema {
  import opened Wrappers

  /** A JSON value: the contents of opaque mappings and of extension fields. */
  datatype Json =
    | Null
    | Boolean(b: bool)
    | Number(n: int)
    | Text(s: string)
    | Array(items: seq<Json>)
    | Object(members: map<string, Json>)

  /** The only format tag the manifest accepts. */
  const FormatTag: string := "dpm/v1"

  /** Default `Checksum.algorithm`. */
  const DefaultAlgorithm: string := "sha256"

  /** A digest of the bytes a link points at, computed elsewhere. */
  datatype Checksum = Checksum(algorithm: string, hash: string)

  /** A pointer to externally stored bytes; `uri` is kept as an opaque locator. */
  datatype Link = Link(uri: string, checksum: Option<Checksum>)

  /**
   One compiled artifact: the compiler that builds it, its source paths in
   compilation order, deployed addresses per chain id, and where the output is.
   */
  datatype ContractType = ContractType(
    compiler: string,
    sources: seq<string>,
    deployments: map<int, seq<string>>,
    output: Option<Link>)

  /** One local source file; `extra` holds the fields the record does not declare. */
  datatype Source = Source(link: Link, extra: map<string, Json>)

  /** A compiler binary and its opaque settings. */
  datatype Compiler = Compiler(bin: Link, settings: map<string, Json>)

  /** The manifest; `extra` holds the top-level fields the record does not declare. */
  datatype Manifest = Manifest(
    manifest: string,
    name: string,
    metadata: map<string, Json>,
    types: map<string, ContractType>,
    sources: map<string, Source>,
    compilers: map<string, Compiler>,
    dependencies: map<string, Link>,
    extra: map<string, Json>)

  /** The field names `Manifest` declares; an extension field never has one of them. */
  const ManifestFieldNames: set<string> :=
    {"manifest", "name", "metadata", "types", "sources", "compilers", "dependencies"}

  /** The field names `Source` declares. */
  const SourceFieldNames: set<string> := {"link"}

  /** Extension fields, top-level and per source, are named apart from the declared ones. */
  predicate ExtrasApart(m: Manifest) {
    && m.extra.Keys !! ManifestFieldNames
    && forall p :: p in m.sources ==> m.sources[p].extra.Keys !! SourceFieldNames
  }
}

=== FILE: wrappers.dfy ===
/** Success/failure and presence/absence values shared by the manifest model. */
module Wrappers {

  /** A value that may be absent: a field left out of a document, or a `None`. */
  datatype Option<+T> = None | Some(value: T) {

    /** The carried value, or `default` when there is none. */
    function GetOr(default: T): T {
      match this
      case Some(v) => v
      case None => default
    }
  }

  /** The outcome of a validation step: the validated value or what went wrong. */
  datatype Result<+T, +E> = Success(value: T) | Failure(error: E)
}
